=== FILE: README.md ===
# olive2022 conversion and launch core, in Dafny

olive2022 moves Olive Archive virtual-machine images, which are published as
VMNetX packages, onto the Sinfonia edge-deployment framework. This project
models the pure logic of `src/olive2022.py`:

- **Identity**: a `vmnetx://` URL is canonicalised to the `vmnetx+https`
  scheme, keeping only the network location and the path. A name-based
  (version 5) UUID is then derived from it in the Olive Archive namespace.
  That UUID names the container image, the recipe file and the Sinfonia
  backend.
- **Package metadata**: the package's display name is checked, and the
  operator is asked for another name while it is empty or
  `Virtual Machine`. The CPU count and the memory size in MiB are read from
  the domain descriptor, each with its default.
- **Compression report**: the whole-percent saving of the recompressed disk
  over the raw disk, printed only when it is not 0.
- **Publication**: the container tag `{registry}/{uuid}:latest`. The push
  gate asks the operator before pushing an image that has no deploy token.
  The push and remove commands follow.
- **Recipe**: the deploy token is split into registry credentials. The
  recipe path is `RECIPES/{uuid}.yaml`, and the YAML recipe text is built
  line by line. A line-based reader reads it back.
- **Conversion run**: the steps above, in the script's order, with the
  error paths of the modelled steps.
- **Stage 2 of a launch**: the loop that polls `vmi-vnc:5900` until the
  server answers with the RFB signature, then the choice of a VNC viewer
  and the address form that viewer expects.

Everything the script gets from outside is a parameter:

- the package texts (name attribute, `vcpu` and `memory` element texts);
- the disk sizes;
- the operator's answers, as a sequence of lines;
- the probe outcomes, one per connection attempt;
- `shutil.which`, as a function;
- SHA-1 over the UTF-8 name, as a function `NameDigest`.

Files:

- `wrappers.dfy`: `Option` and `Result`.
- `errors.dfy`: the exceptions that end a run.
- `text.dfy`: `split(sep, 1)`, lines, ASCII lower-casing, `int()` and `str()` of integers.
- `identity.dfy`: URL canonicalisation, UUID version 5, UUID text.
- `package.dfy`: the name gate, CPU and memory.
- `compression.dfy`: the savings report.
- `recipe.dfy`: the tag, the recipe path, the credentials, and the recipe text with its reader.
- `publish.dfy`: the push gate and the publish commands.
- `convert.dfy`: the whole conversion.
- `stage2.dfy`: polling and viewer choice.

Two behaviours of the code worth noting:

- A declined push calls `sys.exit()` before the recipe is written, so a
  declined run produces no recipe (`Convert.ExitsIffPushDeclined`).
- With a deploy token the image is pushed before the registry and the token
  are split. A malformed token therefore fails the run after the push
  (`Convert.MalformedTokenWritesNoRecipe`).

## Model

| member | source | states |
|---|---|---|
| Identity.Canonical | src/olive2022.py:45-46 | the canonical URL always carries the `vmnetx+https:` scheme, whatever scheme the input had |
| Identity.SplitCanonicalOfCanonical | src/olive2022.py:45-46 | when the network location is non-empty and has no `/`, and the path is empty or absolute, the canonical URL reads back to exactly that location and path |
| Identity.CanonicalInjective | src/olive2022.py:45-46 | for such URLs, two canonical URLs are equal if and only if the locations and paths are equal: params, query, fragment and scheme are dropped, nothing else |
| Identity.Uuid5 | src/olive2022.py:47 | a name-based UUID is the SHA-1 digest's first 16 bytes with the version nibble set to 5 and the variant bits set to RFC 4122's, every other bit kept |
| Identity.UrlToUuid | src/olive2022.py:43-47 | the identity of a URL is the SHA-1 digest of its canonical form in the Olive Archive namespace, with the version nibble set to 5 and the RFC 4122 variant bits set, every other bit of the digest's first 16 bytes kept |
| Identity.UuidDependsOnlyOnNetlocAndPath | src/olive2022.py:43-47 | URLs that agree on network location and path get the same identity |
| Identity.DistinctUrlsHashDistinctNames | src/olive2022.py:43-47 | URLs with an authority that differ in location or path hash different names |
| Identity.UnhexOfHex | src/olive2022.py:47 | lower-case hexadecimal text of bytes reads back to those bytes |
| Identity.UuidText | src/olive2022.py:122 | `str(uuid)` is 36 characters, with hyphens exactly at positions 8, 13, 18 and 23 and lower-case hex digits elsewhere |
| Identity.ParseUuidTextOfUuidText | src/olive2022.py:122 | the text form of a UUID reads back to that UUID |
| Identity.UuidTextInjective | src/olive2022.py:122 | distinct UUIDs have distinct text forms |
| Identity.NamespaceText | src/olive2022.py:30 | the namespace constant's bytes print as `835a9728-a1f7-4d0f-82f8-cd0da8838673` |
| Text.SplitOnce | src/olive2022.py:233-234 | `split(sep, 1)` unpacks into two parts exactly when the separator occurs; the first part holds no separator, and the parts rejoin to the input |
| Text.SplitOnceOfJoined | src/olive2022.py:233-234 | splitting `a + sep + b` where `a` has no separator gives back `a` and `b` |
| Text.LinesOfJoin | src/olive2022.py:247-265 | lines without newlines joined with `\n` split back into the same lines |
| Text.JoinOfLines | src/olive2022.py:247-265 | splitting a text into lines and joining them gives the text back |
| Text.ParseIntOfIntToString | src/olive2022.py:259-260 | `int(str(i)) == i` for every integer |
| Package.ResolveName | src/olive2022.py:147-149 | the name is kept unless it is empty or `Virtual Machine`; otherwise it is the first answer that is neither, with the answers before it consumed; end of input fails with EndOfInput exactly when no answer qualifies |
| Package.Cpus | src/olive2022.py:153 | the CPU count is `int()` of the `vcpu` text, or 1 when the element is absent |
| Package.Memory | src/olive2022.py:154 | the memory succeeds exactly when the text (default `65536`) parses, and otherwise fails with the ValueError of `int()` on that text; the result is the native amount floored to units of 1024 |
| Package.Inspect | src/olive2022.py:147-154 | a missing name attribute fails first; otherwise the inspection succeeds exactly when the name gate, Cpus and Memory all succeed, and fails with the error of the first of them that fails; a success carries the gate's name and remaining answers and the CPU count and memory that Cpus and Memory give, and a name that is already real consumes no answer |
| Package.MemoryDefault | src/olive2022.py:154 | no `memory` element gives 64 MiB |
| Package.MemoryWholeMebibytes | src/olive2022.py:154 | 131072 KiB gives 128 MiB |
| Package.MemoryTruncates | src/olive2022.py:154 | 1500 KiB gives 1 MiB: the remainder is dropped |
| Compression.Savings | src/olive2022.py:179 | the saving fails exactly on an empty raw disk; otherwise it is the whole percentage for which `(100-s)*pre <= 100*post < (101-s)*pre` |
| Compression.SavingsLine | src/olive2022.py:180-181 | a line is printed exactly when the saving is not 0; it starts `compression savings `, ends with `%`, and its number reads back as the saving |
| Compression.Report | src/olive2022.py:179-181 | an empty raw disk is a division by zero; otherwise a line is printed exactly when `100*post//pre` is not 100, and it starts `compression savings `, ends with `%`, and its number reads back as `100 - 100*post//pre` |
| Compression.NoReportIff | src/olive2022.py:179-181 | nothing is printed exactly when the recompressed image kept at least 100% and less than 101% of the raw size |
| Compression.SavingsIsAPercentage | src/olive2022.py:179 | an image no larger than the raw disk saves between 0 and 100 percent |
| Compression.ReportExamples | src/olive2022.py:179-181 | 1000 bytes recompressed into 400 save 60%; into 1000 they save 0% and print nothing |
| Recipe.ContainerTag | src/olive2022.py:188 | the tag is the registry, a `/`, the 36-character UUID text and `:latest` |
| Recipe.SplitTagOfContainerTag | src/olive2022.py:188 | a tag reads back to its registry and UUID |
| Recipe.ContainerTagInjective | src/olive2022.py:188 | two tags are equal if and only if the registries and the UUIDs are |
| Recipe.RecipePath | src/olive2022.py:245 | the recipe path is `RECIPES/`, the UUID text and `.yaml` |
| Recipe.RecipePathUuidOfRecipePath | src/olive2022.py:245 | a recipe path reads back to its UUID |
| Recipe.RecipePathInjective | src/olive2022.py:245 | two recipe paths are equal if and only if the UUIDs are |
| Recipe.ResolveAccess | src/olive2022.py:232-243 | no token means an unrestricted recipe; with a token, success exactly when the registry has a `/` and the token a `:`; the host is the registry before its first `/` and the username the token before its first `:`; each malformed input gives its own error |
| Recipe.PasswordMayHoldColons | src/olive2022.py:234 | only the first colon splits the token, so the password may hold colons |
| Recipe.UnrestrictedBlock | src/olive2022.py:243 | without a token the credentials block is the single line `  restricted: false` |
| Recipe.RecipeText | src/olive2022.py:247-265 | the recipe is the fourteen header lines, each ending in a newline, followed by the credentials block; ParseRecipeOfRecipeText reads it back |
| Recipe.QuotedOfQuote | src/olive2022.py:249 | any value, quotes included, reads back from the line that quotes it after its key |
| Recipe.IntFieldOfInt | src/olive2022.py:259-260 | an integer field line reads back to its integer |
| Recipe.ParseRecipeOfRecipeText | src/olive2022.py:232-265 | when the name, registry, UUID and credentials hold no newline, the recipe text reads back to exactly the fields it was built from |
| Publish.AcceptsPushIff | src/olive2022.py:215-217 | an answer accepts the push exactly when its first three characters are `y`, `e`, `s` in either case |
| Publish.DecidePush | src/olive2022.py:209-222 | a kept working directory never publishes, and the image is kept local only then; a token publishes without asking; otherwise the next answer is read, and the push happens exactly when it accepts; end of input fails exactly when an answer was needed and none is left |
| Publish.PublishCommands | src/olive2022.py:222-227 | commands are issued exactly when the image is pushed: `docker push` of the tag first, `docker image rm` of the tag last |
| Convert.ConvertPackage | src/olive2022.py:145-265 | the first failing stage, in the order name and sizes, compression, push question, credentials, ends the run with its own error; the run exits at the push question exactly when the answer declines; a recipe is written exactly when every stage succeeds and the push is not declined; the tag, recipe path and recipe name all come from the identity, the recipe text is built from the recipe, commands are issued exactly when no working directory is kept, and they are `docker push` and then `docker image rm` of the run's own tag, and a failure after the push needs a token |
| Convert.EmittedRecipeCarriesMetadata | src/olive2022.py:147-154 | an emitted recipe holds the inspected name, CPU count and memory, the credentials split from the token, and the savings line the disk sizes call for |
| Convert.Run | src/olive2022.py:121 | a run that does not fail is addressed by the identity of its URL |
| Convert.ExitsIffPushDeclined | src/olive2022.py:215-218 | the run ends with no recipe exactly when the earlier steps succeed, there is no working directory and no token, and the next answer does not accept |
| Convert.MalformedTokenWritesNoRecipe | src/olive2022.py:234 | a token without `:` never yields a recipe; when the registry has a `/` the run fails on the token, after the push unless a working directory was kept |
| Convert.ReconversionTargetsSameArtifacts | src/olive2022.py:121 | URLs that agree on location and path give the same run |
| Convert.AccessIsSingleLine | src/olive2022.py:232-241 | credentials split from a registry and token without newlines hold no newline |
| Convert.EmittedRunIsConsistent | src/olive2022.py:188 | the tag, recipe path and recipe name of an emitted run all read back to the URL's identity, and the recipe text reads back to the recipe |
| Stage2.Await | src/olive2022.py:70-81 | the loop connects at the first probe that received bytes starting with `RFB`; every earlier probe was a resolution failure, refusal, timeout or non-RFB reply; any other socket error ends it; while only retried probes are seen, it keeps polling |
| Stage2.ConnectsAfterFirstReady | src/olive2022.py:70-81 | if the first n attempts were retried and attempt n+1 is ready, the loop connects after exactly n+1 attempts |
| Stage2.ChooseViewer | src/olive2022.py:84-96 | `remote-viewer` gets the `vnc://vmi-vnc:5900` URL; otherwise the first installed of `gvncviewer` and `vncviewer` gets `vmi-vnc:0`; no viewer is chosen exactly when none is installed |
| Stage2.ChooseViewerFollowsPreference | src/olive2022.py:84-94 | the chosen viewer is the first installed program in the order `remote-viewer`, `gvncviewer`, `vncviewer` |
| Stage2.Stage2Events | src/olive2022.py:67-97 | the waiting message comes first; the line is ended exactly when the loop connects, and a connected run ends with the viewer step |
| Stage2.NoViewerInstalled | src/olive2022.py:89-97 | when the loop connects and none of the three viewers is installed, nothing is started and the run ends with the failure message and a ten-second sleep |
| Stage2.DotPerAttempt | src/olive2022.py:70-71 | one dot is printed per connection attempt |
| Stage2.NoViewerBeforeConnected | src/olive2022.py:81-94 | a viewer starts only after the loop connected, and starting it is the last event |
| Stage2.ViewerStartsLast | src/olive2022.py:86-93 | once connected with a viewer installed, the run ends by starting that viewer with the dry-run prefix |

## Left out

- Fetching the package over HTTPS with progress output (src/olive2022.py:124-140) is network I/O.
- Reading the zip archive and parsing its XML are left out. The texts the script reads are parameters. A unit attribute on the `memory` element is ignored by the code, and so by the model.
- `urlparse` and `urlunparse` internals are left out. The URL is taken already split into its six parts. Canonical follows `urlunparse` for a non-empty network location, and for an empty one with a path that does not start with `//`. Python versions differ on the remaining edge case.
- SHA-1 and the UTF-8 encoding of the name are the parameter `NameDigest`. Their internals are not modelled.
- `qemu-img`, `docker build`, `docker push` and `docker image rm` are external processes. The model returns the push and remove commands, and takes the disk sizes as inputs. In the code, a non-zero exit status of any of them ends the run. The model assumes every external command succeeds.
- A package missing one of its entries (src/olive2022.py:146, 152, 159) raises KeyError in the code; the model starts from the texts already read.
- Convert.ConvertPackage: the savings line is recorded only in runs that write a recipe. The code prints it before the push question (src/olive2022.py:180-181), so a run that exits at the question or fails on the credentials prints it too.
- The Dockerfile and `.dockerignore` texts (src/olive2022.py:189-203) and the deletion of temporary files are file-system effects. The recipe file's directory creation and write are modelled only as the path and the text.
- The progress output of `convert` (src/olive2022.py:122, 150, 155, 158, 165, 187, 221, 230) is left out: it is informational. Only the savings line, which depends on the computation, is modelled.
- The final "Done" prompt (src/olive2022.py:266) is left out: it comes after everything the run produces. Its EOFError at end of input is not modelled.
- `launch`, `install`, `uninstall`, `main` and the argument defaults are command-line and desktop integration around the core.
- The one-second connection and receive timeouts, `sleep(1)` and `sleep(10)` are timing. The outcome of each attempt is a parameter, and sleeps appear only as events.
- Text.ParseInt: accepts ASCII digits, an optional sign and the ASCII characters `int()` strips (space, tab, line and form breaks, 0x1C to 0x1F), of any length. Python's `int()` also accepts `_` separators and non-ASCII digits and whitespace, which are not modelled. Recent Python releases also reject decimal texts longer than 4300 digits, a limit the model does not have.
- Text.Lower: lowers ASCII letters only, where Python's `str.lower()` also lowers other scripts. No other character lowers to `y`, `e` or `s`, so the push answer test is unaffected.
- A zero or negative CPU count or memory size is accepted, as in the code: nothing validates them.

=== FILE: compression.dfy ===
/**
 * The recompression report: the percentage of the raw disk's size saved by
 * the re-encoded image, and the line printed when that percentage is not 0.
 */
module Compression {
  import opened Wrappers
  import opened Errors
  import opened Text

  /**
   * `100 - 100 * post // pre`: the saving in whole percent, where the
   * percentage kept is floored. An empty raw disk divides by zero.
   */
  function Savings(pre: nat, post: nat): (r: Result<int, Error>)
    ensures r.Failure? <==> pre == 0
    ensures r.Failure? ==> r.error == EmptyRawDisk
    ensures r.Success? ==> (100 - r.value) * pre <= 100 * post < (101 - r.value) * pre
  {
    if pre == 0 then Failure(EmptyRawDisk)
    else
      var kept := 100 * post / pre;
      assert kept * pre <= 100 * post < (kept + 1) * pre by {
        assert 100 * post == kept * pre + 100 * post % pre;
      }
      Success(100 - kept)
  }

  const ReportPrefix: string := "compression savings "

  /** The line `compression savings {n}%`, printed only when the saving is not 0. */
  function SavingsLine(savings: int): (r: Option<string>)
    ensures r.Some? <==> savings != 0
    ensures r.Some? ==>
      && StartsWith(r.value, ReportPrefix)
      && EndsWith(r.value, "%")
      && |r.value| > |ReportPrefix|
      && ParseInt(r.value[|ReportPrefix|..|r.value| - 1]) == Some(savings)
  {
    if savings != 0 then
      var line := ReportPrefix + IntToString(savings) + "%";
      assert line[|ReportPrefix|..|line| - 1] == IntToString(savings);
      ParseIntOfIntToString(savings);
      Some(line)
    else None
  }

  /**
   * The report for a raw disk of `pre` bytes re-encoded into `post` bytes:
   * the division by zero of an empty raw disk, or the line to print, if any,
   * for the saving `100 - 100 * post // pre`.
   */
  function Report(pre: nat, post: nat): (r: Result<Option<string>, Error>)
    ensures r.Failure? <==> pre == 0
    ensures r.Failure? ==> r.error == EmptyRawDisk
    ensures r.Success? ==> (r.value.None? <==> 100 * post / pre == 100)
    ensures r.Success? && r.value.Some? ==>
      && StartsWith(r.value.value, ReportPrefix)
      && EndsWith(r.value.value, "%")
      && |r.value.value| > |ReportPrefix|
      && ParseInt(r.value.value[|ReportPrefix|..|r.value.value| - 1]) == Some(100 - 100 * post / pre)
  {
    var savings :- Savings(pre, post);
    Success(SavingsLine(savings))
  }

  /** The saving is 0, and nothing is printed, exactly when the image kept between 100% and 101% of the raw size. */
  lemma NoReportIff(pre: nat, post: nat)
    requires pre > 0
    ensures Report(pre, post) == Success(None) <==> pre <= post && 100 * post < 101 * pre
  {
    var s := Savings(pre, post).value;
    assert Report(pre, post) == Success(None) <==> s == 0;
    ZeroSavingsBounds(pre, post, s);
  }

  /** The bounds Savings guarantees pin a saving of 0 to a kept size between 100% and 101%. */
  lemma ZeroSavingsBounds(pre: nat, post: nat, s: int)
    requires pre > 0
    requires (100 - s) * pre <= 100 * post < (101 - s) * pre
    ensures s == 0 <==> pre <= post && 100 * post < 101 * pre
  {
    if s > 0 {
      ScaleMonotone(101 - s, 100, pre);
    } else if s < 0 {
      ScaleMonotone(101, 100 - s, pre);
    }
  }

  lemma ScaleMonotone(a: int, b: int, c: nat)
    requires a <= b
    ensures a * c <= b * c
  {
  }

  /** An image no larger than the raw disk saves between 0% and 100%. */
  lemma SavingsIsAPercentage(pre: nat, post: nat)
    requires 0 < pre && post <= pre
    ensures 0 <= Savings(pre, post).value <= 100
  {
  }

  /** A raw disk of 1000 bytes re-encoded into 400 saves 60%; re-encoded into 1000 it saves nothing and nothing is printed. */
  lemma ReportExamples()
    ensures Savings(1000, 400) == Success(60)
    ensures Savings(1000, 1000) == Success(0)
    ensures Report(1000, 1000) == Success(None)
  {
  }
}

=== FILE: convert.dfy ===
/**
 * The conversion run: identity, package metadata, compression report,
 * container tag, publication gate, credentials and recipe, in the order the
 * script performs them. Downloads, extraction, the external tools and the
 * file writes are outside the model; their observable inputs (the package
 * texts and the disk sizes) are parameters.
 */
module Convert {
  import opened Wrappers
  import opened Errors
  import opened Text
  import opened Identity
  import opened Package
  import opened Compression
  import opened Recipe
  import opened Publish

  /** The command line's settings: registry, optional deploy token, optional kept working directory. */
  datatype Config = Config(registry: string, deployToken: Option<string>, workDir: Option<string>)

  /** Byte sizes of the raw disk and of its recompressed image. */
  datatype DiskSizes = DiskSizes(raw: nat, encoded: nat)

  datatype Outcome =
    /** An exception ended the run; `pushed` tells whether the image had already been published. */
    | Failed(error: Error, pushed: bool)
    /** The operator declined the push: the run exits after building the image, writing no recipe. */
    | Exited(id: Uuid, tag: string)
    /** The recipe was written at `recipePath`. */
    | Emitted(
        id: Uuid,
        tag: string,
        savingsLine: Option<string>,
        publishCommands: seq<seq<string>>,
        recipePath: string,
        recipe: RecipeFields,
        recipeText: string)

  /** The package inspects and the disk sizes report: the run gets as far as the push question. */
  predicate ReachesPushGate(texts: PackageTexts, sizes: DiskSizes, answers: seq<string>) {
    Inspect(texts, answers).Success? && Report(sizes.raw, sizes.encoded).Success?
  }

  /** The push question, asked with the answers left after the name gate. */
  function PushGate(cfg: Config, texts: PackageTexts, answers: seq<string>): Result<Prompted<PushDecision>, Error>
    requires Inspect(texts, answers).Success?
  {
    DecidePush(cfg.workDir.Some?, cfg.deployToken.Some?, Inspect(texts, answers).value.rest)
  }

  /** The run gets past the push question without exiting: the image was kept or pushed. */
  predicate PassesPushGate(cfg: Config, texts: PackageTexts, sizes: DiskSizes, answers: seq<string>) {
    && ReachesPushGate(texts, sizes, answers)
    && PushGate(cfg, texts, answers).Success?
    && !PushGate(cfg, texts, answers).value.value.Declined?
  }

  /**
   * The conversion once the identity is known: metadata, compression report,
   * tag, push gate, credentials and recipe, with the operator's answers in
   * the order the script asks. The first failing stage ends the run with its
   * error; a recipe is written exactly when every stage succeeds and the push
   * is not declined.
   */
  function ConvertPackage(id: Uuid, cfg: Config, texts: PackageTexts, sizes: DiskSizes, answers: seq<string>): (o: Outcome)
    ensures Inspect(texts, answers).Failure? ==> o == Failed(Inspect(texts, answers).error, false)
    ensures Inspect(texts, answers).Success? && Report(sizes.raw, sizes.encoded).Failure? ==>
      o == Failed(Report(sizes.raw, sizes.encoded).error, false)
    ensures ReachesPushGate(texts, sizes, answers) && PushGate(cfg, texts, answers).Failure? ==>
      o == Failed(PushGate(cfg, texts, answers).error, false)
    ensures o.Exited? <==>
      && ReachesPushGate(texts, sizes, answers)
      && PushGate(cfg, texts, answers).Success?
      && PushGate(cfg, texts, answers).value.value.Declined?
    ensures PassesPushGate(cfg, texts, sizes, answers) && ResolveAccess(cfg.registry, cfg.deployToken).Failure? ==>
      o == Failed(ResolveAccess(cfg.registry, cfg.deployToken).error, PushGate(cfg, texts, answers).value.value.Pushed?)
    ensures o.Emitted? <==>
      PassesPushGate(cfg, texts, sizes, answers) && ResolveAccess(cfg.registry, cfg.deployToken).Success?
    ensures o.Exited? ==> cfg.workDir.None? && cfg.deployToken.None?
    ensures !o.Failed? ==> o.id == id && o.tag == ContainerTag(cfg.registry, id)
    ensures o.Emitted? ==>
      && o.recipe.name == UuidText(id)
      && o.recipe.repository == cfg.registry
      && o.recipePath == RecipePath(id)
      && o.recipeText == RecipeText(o.recipe)
      && (|o.publishCommands| > 0 <==> cfg.workDir.None?)
    ensures o.Emitted? && cfg.workDir.None? ==>
      o.publishCommands == [["docker", "push", o.tag], ["docker", "image", "rm", o.tag]]
    ensures o.Failed? && o.pushed ==> cfg.deployToken.Some? && cfg.workDir.None?
  {
    match Inspect(texts, answers)
    case Failure(e) => Failed(e, false)
    case Success(inspected) =>
      var meta := inspected.value;
      match Report(sizes.raw, sizes.encoded)
      case Failure(e) => Failed(e, false)
      case Success(savingsLine) =>
        var tag := ContainerTag(cfg.registry, id);
        match DecidePush(cfg.workDir.Some?, cfg.deployToken.Some?, inspected.rest)
        case Failure(e) => Failed(e, false)
        case Success(decided) =>
          var decision := decided.value;
          if decision.Declined? then Exited(id, tag)
          else
            match ResolveAccess(cfg.registry, cfg.deployToken)
            case Failure(e) => Failed(e, decision.Pushed?)
            case Success(access) =>
              var recipe := RecipeFields(meta.displayName, cfg.registry, UuidText(id), meta.cpus, meta.memory, access);
              Emitted(id, tag, savingsLine, PublishCommands(decision, tag), RecipePath(id), recipe, RecipeText(recipe))
  }

  /**
   * The recipe of an emitted run carries the inspected display name, CPU
   * count and memory size, and the credentials split from the registry and
   * token; the savings line is the one the disk sizes call for.
   */
  lemma EmittedRecipeCarriesMetadata(id: Uuid, cfg: Config, texts: PackageTexts, sizes: DiskSizes, answers: seq<string>)
    requires ConvertPackage(id, cfg, texts, sizes, answers).Emitted?
    ensures var o := ConvertPackage(id, cfg, texts, sizes, answers);
      && Inspect(texts, answers).Success?
      && o.recipe.description == Inspect(texts, answers).value.value.displayName
      && o.recipe.cpu == Inspect(texts, answers).value.value.cpus
      && o.recipe.memory == Inspect(texts, answers).value.value.memory
      && ResolveAccess(cfg.registry, cfg.deployToken) == Success(o.recipe.access)
      && o.savingsLine == SavingsLine(Savings(sizes.raw, sizes.encoded).value)
  {
  }

  /** `convert`: the identity of the URL is derived first and addresses everything the run produces. */
  function Run(sha1: NameDigest, cfg: Config, url: Url, texts: PackageTexts, sizes: DiskSizes, answers: seq<string>): (o: Outcome)
    ensures !o.Failed? ==> o.id == UrlToUuid(sha1, url)
  {
    ConvertPackage(UrlToUuid(sha1, url), cfg, texts, sizes, answers)
  }

  /**
   * The run ends at the push question, with no recipe, exactly when the
   * earlier stages succeed, neither a working directory nor a token was
   * given, and the operator's next answer is not a "yes".
   */
  lemma ExitsIffPushDeclined(sha1: NameDigest, cfg: Config, url: Url, texts: PackageTexts, sizes: DiskSizes, answers: seq<string>)
    ensures Run(sha1, cfg, url, texts, sizes, answers).Exited? <==>
      && Inspect(texts, answers).Success?
      && Report(sizes.raw, sizes.encoded).Success?
      && cfg.workDir.None? && cfg.deployToken.None?
      && |Inspect(texts, answers).value.rest| > 0
      && !AcceptsPush(Inspect(texts, answers).value.rest[0])
  {
  }

  /**
   * A deploy token without a colon never yields a recipe. Once the earlier
   * stages succeed against a registry with a `/`, the run fails on the token,
   * after the image was already pushed unless a working directory was kept.
   */
  lemma MalformedTokenWritesNoRecipe(sha1: NameDigest, cfg: Config, url: Url, texts: PackageTexts, sizes: DiskSizes, answers: seq<string>)
    requires cfg.deployToken.Some? && ':' !in cfg.deployToken.value
    ensures !Run(sha1, cfg, url, texts, sizes, answers).Emitted?
    ensures Inspect(texts, answers).Success? && Report(sizes.raw, sizes.encoded).Success? && '/' in cfg.registry ==>
      Run(sha1, cfg, url, texts, sizes, answers) == Failed(TokenWithoutColon, cfg.workDir.None?)
  {
  }

  /** Converting two URLs that differ only in scheme, params, query or fragment targets the same image tag and recipe file. */
  lemma ReconversionTargetsSameArtifacts(
    sha1: NameDigest, cfg: Config, u1: Url, u2: Url, texts: PackageTexts, sizes: DiskSizes, answers: seq<string>)
    requires u1.netloc == u2.netloc && u1.path == u2.path
    ensures Run(sha1, cfg, u2, texts, sizes, answers) == Run(sha1, cfg, u1, texts, sizes, answers)
  {
    UuidDependsOnlyOnNetlocAndPath(sha1, u1, u2);
  }

  lemma NoNewlineInParts(a: string, sep: char, b: string)
    requires NoNewline(a + [sep] + b)
    ensures NoNewline(a) && NoNewline(b)
  {
  }

  /** Credentials split from a registry and token without newlines hold no newline either. */
  lemma AccessIsSingleLine(registry: string, token: Option<string>, access: Access)
    requires ResolveAccess(registry, token) == Success(access)
    requires NoNewline(registry)
    requires token.Some? ==> NoNewline(token.value)
    ensures access.Restricted? ==>
      NoNewline(access.registryHost) && NoNewline(access.username) && NoNewline(access.password)
  {
    if access.Restricted? {
      var host := access.registryHost;
      assert registry == host + ['/'] + registry[|host| + 1..];
      NoNewlineInParts(host, '/', registry[|host| + 1..]);
      assert token.value == access.username + [':'] + access.password;
      NoNewlineInParts(access.username, ':', access.password);
    }
  }

  lemma UuidTextHasNoNewline(id: Uuid)
    ensures NoNewline(UuidText(id))
  {
  }

  /**
   * An emitted run is addressed consistently by its identity: the tag and the
   * recipe path read back to it, the recipe names it, and when the name,
   * registry and token hold no newline the recipe text reads back to exactly
   * the recipe's values.
   */
  lemma EmittedRunIsConsistent(sha1: NameDigest, cfg: Config, url: Url, texts: PackageTexts, sizes: DiskSizes, answers: seq<string>)
    requires Run(sha1, cfg, url, texts, sizes, answers).Emitted?
    requires NoNewline(Run(sha1, cfg, url, texts, sizes, answers).recipe.description)
    requires NoNewline(cfg.registry)
    requires cfg.deployToken.Some? ==> NoNewline(cfg.deployToken.value)
    ensures var o := Run(sha1, cfg, url, texts, sizes, answers);
      && SplitTag(o.tag) == Some((cfg.registry, UrlToUuid(sha1, url)))
      && RecipePathUuid(o.recipePath) == Some(UrlToUuid(sha1, url))
      && ParseUuidText(o.recipe.name) == Some(UrlToUuid(sha1, url))
      && ParseRecipe(o.recipeText) == Some(o.recipe)
  {
    var o := Run(sha1, cfg, url, texts, sizes, answers);
    var id := o.id;
    SplitTagOfContainerTag(cfg.registry, id);
    RecipePathUuidOfRecipePath(id);
    ParseUuidTextOfUuidText(id);
    UuidTextHasNoNewline(id);
    AccessIsSingleLine(cfg.registry, cfg.deployToken, o.recipe.access);
    assert SingleLineValues(o.recipe);
    ParseRecipeOfRecipeText(o.recipe);
  }
}

=== FILE: errors.dfy ===
/** The exceptions the conversion and launch paths can raise, one constructor each. */
module Errors {

  datatype Error =
    /** `attrib["name"]` on a package descriptor without a name attribute (a KeyError). */
    | MissingNameAttribute
    /** `input()` called after the operator's answers ran out (an EOFError). */
    | EndOfInput
    /** `int(text)` on a text that is not a decimal integer (a ValueError). */
    | InvalidInteger(text: string)
    /** The compression percentage divides by the size of an empty raw disk (a ZeroDivisionError). */
    | EmptyRawDisk
    /** `registry.split("/", 1)` unpacked into two names when the registry has no `/` (a ValueError). */
    | RegistryWithoutSlash(registry: string)
    /** `deploy_token.split(":", 1)` unpacked into two names when the token has no `:` (a ValueError). */
    | TokenWithoutColon
}

=== FILE: identity.dfy ===
/**
 * Identity derivation: a VMNetX URL is canonicalised to the `vmnetx+https`
 * scheme with only its network location and path kept, and the deployment's
 * UUID is the name-based (version 5) UUID of that text under the Olive Archive
 * namespace, as in section 4.3 of RFC 4122.
 */
module Identity {
  import opened Wrappers
  import opened Text

  /** A URL already split by `urlparse` into its six components. */
  datatype Url = Url(
    scheme: string,
    netloc: string,
    path: string,
    params: string,
    query: string,
    fragment: string)

  const CanonicalScheme: string := "vmnetx+https"

  /**
   * `urlunparse(("vmnetx+https", netloc, path, None, None, None))`: the scheme
   * is replaced and params, query and fragment are dropped. With a network
   * location present, `//netloc` is inserted and a path lacking its leading
   * `/` gets one; `vmnetx+https` is not a scheme that `urlunsplit` gives `//`
   * when the network location is empty.
   */
  function Canonical(u: Url): (s: string)
    ensures StartsWith(s, CanonicalScheme + ":")
  {
    var rest :=
      if u.netloc != "" then
        "//" + u.netloc + (if u.path != "" && u.path[0] != '/' then "/" + u.path else u.path)
      else u.path;
    CanonicalScheme + ":" + rest
  }

  /**
   * The shape `urlparse` gives a URL with an authority part: a non-empty
   * network location without `/`, and a path that is empty or starts with `/`.
   */
  predicate HasAuthority(u: Url) {
    && u.netloc != ""
    && '/' !in u.netloc
    && (u.path == "" || u.path[0] == '/')
  }

  const AuthorityPrefix: string := CanonicalScheme + "://"

  /** Reads a canonical string back into its network location and path. */
  function SplitCanonical(s: string): Option<(string, string)> {
    if !StartsWith(s, AuthorityPrefix) then None
    else
      var rest := s[|AuthorityPrefix|..];
      match FindFirst(rest, '/')
      case None => Some((rest, ""))
      case Some(i) => Some((rest[..i], rest[i..]))
  }

  /** The canonical string of a URL with an authority part keeps its network location and path recoverable. */
  lemma SplitCanonicalOfCanonical(u: Url)
    requires HasAuthority(u)
    ensures SplitCanonical(Canonical(u)) == Some((u.netloc, u.path))
  {
    var s := Canonical(u);
    assert s == AuthorityPrefix + u.netloc + u.path;
    assert s[..|AuthorityPrefix|] == AuthorityPrefix;
    var rest := s[|AuthorityPrefix|..];
    assert rest == u.netloc + u.path;
    if u.path == "" {
      assert rest == u.netloc;
    } else {
      assert rest[|u.netloc|] == '/';
      var i := FindFirst(rest, '/').value;
      assert i == |u.netloc|;
      assert rest[..i] == u.netloc;
      assert rest[i..] == u.path;
    }
  }

  /** Two URLs with an authority part share a canonical string exactly when they share network location and path. */
  lemma CanonicalInjective(u1: Url, u2: Url)
    requires HasAuthority(u1) && HasAuthority(u2)
    ensures Canonical(u1) == Canonical(u2) <==> (u1.netloc == u2.netloc && u1.path == u2.path)
  {
    SplitCanonicalOfCanonical(u1);
    SplitCanonicalOfCanonical(u2);
  }

  // ----- UUIDs -----

  /** The 16 bytes of a UUID, most significant first (Python's `UUID.bytes`). */
  type Uuid = s: seq<Byte> | |s| == 16 witness seq(16, _ => 0)

  /** A 20-byte SHA-1 digest. */
  type Digest = s: seq<Byte> | |s| == 20 witness seq(20, _ => 0)

  /**
   * SHA-1 of a namespace's bytes followed by the UTF-8 bytes of a name. The
   * hash is a parameter of the model: every property below holds whatever
   * function is supplied.
   */
  type NameDigest = (Uuid, string) -> Digest

  /** `NAMESPACE_OLIVEARCHIVE`, 835a9728-a1f7-4d0f-82f8-cd0da8838673. */
  const Namespace: Uuid := [
    0x83, 0x5a, 0x97, 0x28, 0xa1, 0xf7, 0x4d, 0x0f,
    0x82, 0xf8, 0xcd, 0x0d, 0xa8, 0x83, 0x86, 0x73]

  /**
   * `uuid.uuid5(ns, name)`: the first 16 digest bytes with the version field
   * set to 5 and the variant field set to the RFC 4122 variant.
   */
  function Uuid5(sha1: NameDigest, ns: Uuid, name: string): (u: Uuid)
    ensures u[6] / 16 == 5
    ensures u[8] / 64 == 2
    ensures u[6] % 16 == sha1(ns, name)[6] % 16
    ensures u[8] % 64 == sha1(ns, name)[8] % 64
    ensures forall i :: 0 <= i < 16 && i != 6 && i != 8 ==> u[i] == sha1(ns, name)[i]
  {
    var d := sha1(ns, name);
    d[..6] + [d[6] % 0x10 + 0x50] + [d[7]] + [d[8] % 0x40 + 0x80] + d[9..16]
  }

  /** `vmnetx_url_to_uuid`: the deployment identity of a VMNetX URL. */
  function UrlToUuid(sha1: NameDigest, u: Url): (id: Uuid)
    ensures id[6] / 16 == 5 && id[8] / 64 == 2
    ensures id[6] % 16 == sha1(Namespace, Canonical(u))[6] % 16
    ensures id[8] % 64 == sha1(Namespace, Canonical(u))[8] % 64
    ensures forall i :: 0 <= i < 16 && i != 6 && i != 8 ==> id[i] == sha1(Namespace, Canonical(u))[i]
  {
    Uuid5(sha1, Namespace, Canonical(u))
  }

  /** The identity ignores the scheme, params, query and fragment of the URL. */
  lemma UuidDependsOnlyOnNetlocAndPath(sha1: NameDigest, u1: Url, u2: Url)
    requires u1.netloc == u2.netloc && u1.path == u2.path
    ensures UrlToUuid(sha1, u1) == UrlToUuid(sha1, u2)
  {
  }

  /**
   * URLs with an authority part whose network locations or paths differ hash
   * different names, so they can share an identity only through a SHA-1
   * collision.
   */
  lemma DistinctUrlsHashDistinctNames(u1: Url, u2: Url)
    requires HasAuthority(u1) && HasAuthority(u2)
    requires u1.netloc != u2.netloc || u1.path != u2.path
    ensures Canonical(u1) != Canonical(u2)
  {
    CanonicalInjective(u1, u2);
  }

  // ----- UUID text -----

  const HexDigits: string := "0123456789abcdef"

  predicate IsHexDigit(c: char) {
    '0' <= c <= '9' || 'a' <= c <= 'f'
  }

  function HexValue(c: char): (v: nat)
    requires IsHexDigit(c)
    ensures v < 16 && HexDigits[v] == c
  {
    if c <= '9' then c as int - '0' as int else c as int - 'a' as int + 10
  }

  /** Two lower-case hex digits, high nibble first. */
  function HexByte(b: Byte): string {
    [HexDigits[b / 16], HexDigits[b % 16]]
  }

  function Hex(bs: seq<Byte>): (s: string)
    ensures |s| == 2 * |bs|
    ensures forall i :: 0 <= i < |s| ==> IsHexDigit(s[i])
  {
    if |bs| == 0 then "" else HexByte(bs[0]) + Hex(bs[1..])
  }

  lemma {:induction false} HexAppend(a: seq<Byte>, b: seq<Byte>)
    ensures Hex(a + b) == Hex(a) + Hex(b)
  {
    if |a| == 0 {
      assert a + b == b;
    } else {
      HexAppend(a[1..], b);
      assert (a + b)[1..] == a[1..] + b;
      assert (a + b)[0] == a[0];
    }
  }

  /** Reads pairs of lower-case hex digits back into bytes. */
  function Unhex(s: string): Option<seq<Byte>>
    decreases |s|
  {
    if |s| == 0 then Some([])
    else if |s| == 1 || !IsHexDigit(s[0]) || !IsHexDigit(s[1]) then None
    else
      var rest :- Unhex(s[2..]);
      Some([HexValue(s[0]) * 16 + HexValue(s[1])] + rest)
  }

  lemma HexByteDigits(b: Byte)
    ensures IsHexDigit(HexByte(b)[0]) && IsHexDigit(HexByte(b)[1])
    ensures HexValue(HexByte(b)[0]) * 16 + HexValue(HexByte(b)[1]) == b
  {
    assert HexValue(HexByte(b)[0]) == b / 16;
    assert HexValue(HexByte(b)[1]) == b % 16;
  }

  lemma {:induction false} UnhexOfHex(bs: seq<Byte>)
    ensures Unhex(Hex(bs)) == Some(bs)
  {
    if |bs| > 0 {
      UnhexOfHex(bs[1..]);
      var s := Hex(bs);
      assert s == HexByte(bs[0]) + Hex(bs[1..]);
      assert s[2..] == Hex(bs[1..]);
      assert s[..2] == HexByte(bs[0]);
      HexByteDigits(bs[0]);
      assert [bs[0]] + bs[1..] == bs;
    }
  }

  predicate IsHyphenPosition(i: int) {
    i == 8 || i == 13 || i == 18 || i == 23
  }

  /** `str(uuid)`: 32 lower-case hex digits grouped 8-4-4-4-12 by hyphens. */
  function UuidText(u: Uuid): (s: string)
    ensures |s| == 36
    ensures forall i :: 0 <= i < 36 ==> (IsHyphenPosition(i) <==> s[i] == '-')
    ensures forall i :: 0 <= i < 36 && !IsHyphenPosition(i) ==> IsHexDigit(s[i])
  {
    Hex(u[..4]) + "-" + Hex(u[4..6]) + "-" + Hex(u[6..8]) + "-" + Hex(u[8..10]) + "-" + Hex(u[10..])
  }

  /** Reads the canonical 8-4-4-4-12 text of a UUID. */
  function ParseUuidText(s: string): Option<Uuid> {
    if |s| != 36 || s[8] != '-' || s[13] != '-' || s[18] != '-' || s[23] != '-' then None
    else
      var bytes :- Unhex(s[..8] + s[9..13] + s[14..18] + s[19..23] + s[24..]);
      if |bytes| == 16 then Some(bytes) else None
  }

  lemma ParseUuidTextOfUuidText(u: Uuid)
    ensures ParseUuidText(UuidText(u)) == Some(u)
  {
    var s := UuidText(u);
    assert s[..8] == Hex(u[..4]);
    assert s[9..13] == Hex(u[4..6]);
    assert s[14..18] == Hex(u[6..8]);
    assert s[19..23] == Hex(u[8..10]);
    assert s[24..] == Hex(u[10..]);
    HexAppend(u[..4], u[4..6]);
    HexAppend(u[..6], u[6..8]);
    HexAppend(u[..8], u[8..10]);
    HexAppend(u[..10], u[10..]);
    assert u[..4] + u[4..6] == u[..6];
    assert u[..6] + u[6..8] == u[..8];
    assert u[..8] + u[8..10] == u[..10];
    assert u[..10] + u[10..] == u;
    UnhexOfHex(u);
  }

  /** Distinct UUIDs have distinct texts, so every name derived from the text is distinct too. */
  lemma UuidTextInjective(u1: Uuid, u2: Uuid)
    ensures UuidText(u1) == UuidText(u2) <==> u1 == u2
  {
    ParseUuidTextOfUuidText(u1);
    ParseUuidTextOfUuidText(u2);
  }

  lemma HexOfPair(a: Byte, b: Byte)
    ensures Hex([a, b]) == HexByte(a) + HexByte(b)
  {
    assert [a, b][1..] == [b];
  }

  lemma NamespaceGroups()
    ensures Hex(Namespace[..4]) == "835a9728"
    ensures Hex(Namespace[4..6]) == "a1f7"
    ensures Hex(Namespace[6..8]) == "4d0f"
    ensures Hex(Namespace[8..10]) == "82f8"
  {
    var n := Namespace;
    assert Hex(n[..4]) == "835a9728" by {
      assert n[..4] == [0x83, 0x5a] + [0x97, 0x28];
      HexOfPair(0x83, 0x5a);
      HexOfPair(0x97, 0x28);
      HexAppend([0x83, 0x5a], [0x97, 0x28]);
    }
    assert n[4..6] == [0xa1, 0xf7];
    HexOfPair(0xa1, 0xf7);
    assert n[6..8] == [0x4d, 0x0f];
    HexOfPair(0x4d, 0x0f);
    assert n[8..10] == [0x82, 0xf8];
    HexOfPair(0x82, 0xf8);
  }

  lemma NamespaceNode()
    ensures Hex(Namespace[10..]) == "cd0da8838673"
  {
    assert Namespace[10..] == [0xcd, 0x0d] + [0xa8, 0x83] + [0x86, 0x73];
    HexOfPair(0xcd, 0x0d);
    HexOfPair(0xa8, 0x83);
    HexOfPair(0x86, 0x73);
    HexAppend([0xcd, 0x0d], [0xa8, 0x83]);
    HexAppend([0xcd, 0x0d] + [0xa8, 0x83], [0x86, 0x73]);
  }

  /** The namespace constant's bytes spell the text the script writes it as. */
  lemma NamespaceText()
    ensures UuidText(Namespace) == "835a9728" + "-" + "a1f7" + "-" + "4d0f" + "-" + "82f8" + "-" + "cd0da8838673"
  {
    NamespaceGroups();
    NamespaceNode();
  }
}

=== FILE: package.dfy ===
/**
 * Package metadata: the display name taken from the package descriptor (with
 * the operator asked for a name while it is a placeholder), and the CPU and
 * memory sizing read from the domain descriptor.
 */
module Package {
  import opened Wrappers
  import opened Errors
  import opened Text

  /** The texts the script reads from the archive: the descriptor's name attribute and the `vcpu` and `memory` element texts. */
  datatype PackageTexts = PackageTexts(name: Option<string>, vcpu: Option<string>, memory: Option<string>)

  datatype Metadata = Metadata(displayName: string, cpus: int, memory: int)

  /** A value read together with the operator answers still unread after it. */
  datatype Prompted<T> = Prompted(value: T, rest: seq<string>)

  /** The names the script refuses and asks the operator to replace. */
  predicate IsPlaceholder(name: string) {
    name == "" || name == "Virtual Machine"
  }

  /**
   * The name gate: while the name is a placeholder, the next operator answer
   * replaces it. Fails with EndOfInput when the answers run out first.
   */
  function ResolveName(name: string, answers: seq<string>): (r: Result<Prompted<string>, Error>)
    ensures r.Success? ==> !IsPlaceholder(r.value.value)
    ensures !IsPlaceholder(name) ==> r == Success(Prompted(name, answers))
    ensures r.Failure? <==> IsPlaceholder(name) && forall i :: 0 <= i < |answers| ==> IsPlaceholder(answers[i])
    ensures r.Failure? ==> r.error == EndOfInput
    ensures IsPlaceholder(name) && r.Success? ==>
      exists k :: 0 <= k < |answers|
        && r.value.value == answers[k]
        && r.value.rest == answers[k + 1..]
        && forall j :: 0 <= j < k ==> IsPlaceholder(answers[j])
    decreases |answers|
  {
    if !IsPlaceholder(name) then Success(Prompted(name, answers))
    else if |answers| == 0 then Failure(EndOfInput)
    else
      match ResolveName(answers[0], answers[1..])
      case Failure(e) => Failure(e)
      case Success(p) => Success(p)
  }

  const DefaultVcpuText: string := "1"
  const DefaultMemoryText: string := "65536"

  /** `int(text)`, raising InvalidInteger where Python raises ValueError. */
  function ReadInt(text: string): (r: Result<int, Error>)
    ensures r.Success? <==> ParseInt(text).Some?
    ensures r.Success? ==> r.value == ParseInt(text).value
    ensures r.Failure? ==> r.error == InvalidInteger(text)
  {
    match ParseInt(text)
    case Some(n) => Success(n)
    case None => Failure(InvalidInteger(text))
  }

  /** `int(findtext("vcpu", default="1"))`. */
  function Cpus(vcpu: Option<string>): (r: Result<int, Error>)
    ensures vcpu.Some? ==> r == ReadInt(vcpu.value)
    ensures vcpu.None? ==> r == Success(1)
  {
    assert DigitsValue(DefaultVcpuText) == 1;
    ParseIntOfDigits(DefaultVcpuText);
    ReadInt(vcpu.GetOr(DefaultVcpuText))
  }

  /**
   * `int(findtext("memory", default="65536")) // 1024`: the native amount
   * floored to units of 1024. For a positive divisor Dafny's division is
   * Python's floor division, negative amounts included.
   */
  function Memory(memory: Option<string>): (r: Result<int, Error>)
    ensures r.Success? <==> ParseInt(memory.GetOr(DefaultMemoryText)).Some?
    ensures r.Success? ==>
      var native := ParseInt(memory.GetOr(DefaultMemoryText)).value;
      r.value * 1024 <= native < (r.value + 1) * 1024
    ensures r.Failure? ==> r.error == InvalidInteger(memory.GetOr(DefaultMemoryText))
  {
    var native :- ReadInt(memory.GetOr(DefaultMemoryText));
    Success(native / 1024)
  }

  /**
   * The metadata of a package, in the script's order: the name (with its
   * gate), then the CPU count, then the memory size.
   */
  function Inspect(texts: PackageTexts, answers: seq<string>): (r: Result<Prompted<Metadata>, Error>)
    ensures texts.name.None? ==> r == Failure(MissingNameAttribute)
    ensures r.Success? ==> !IsPlaceholder(r.value.value.displayName)
    ensures r.Success? ==> Cpus(texts.vcpu) == Success(r.value.value.cpus)
    ensures r.Success? ==> Memory(texts.memory) == Success(r.value.value.memory)
    ensures r.Success? && !IsPlaceholder(texts.name.value) ==>
      r.value.value.displayName == texts.name.value && r.value.rest == answers
    ensures texts.name.Some? ==>
      (r.Success? <==>
        ResolveName(texts.name.value, answers).Success? && Cpus(texts.vcpu).Success? && Memory(texts.memory).Success?)
    ensures r.Success? ==>
      && texts.name.Some?
      && r.value.value.displayName == ResolveName(texts.name.value, answers).value.value
      && r.value.rest == ResolveName(texts.name.value, answers).value.rest
    ensures texts.name.Some? && ResolveName(texts.name.value, answers).Failure? ==>
      r == Failure(ResolveName(texts.name.value, answers).error)
    ensures texts.name.Some? && ResolveName(texts.name.value, answers).Success? && Cpus(texts.vcpu).Failure? ==>
      r == Failure(Cpus(texts.vcpu).error)
    ensures
      && texts.name.Some? && ResolveName(texts.name.value, answers).Success?
      && Cpus(texts.vcpu).Success? && Memory(texts.memory).Failure?
      ==> r == Failure(Memory(texts.memory).error)
  {
    if texts.name.None? then Failure(MissingNameAttribute)
    else
    var name :- ResolveName(texts.name.value, answers);
    var cpus :- Cpus(texts.vcpu);
    var memory :- Memory(texts.memory);
    Success(Prompted(Metadata(name.value, cpus, memory), name.rest))
  }

  lemma DigitsOfDefaultMemory()
    ensures AllDigits("65536") && DigitsValue("65536") == 65536
  {
    assert DigitsValue("6") == 6;
    DigitsValueSnoc("6", '5');
    assert "6" + ['5'] == "65";
    DigitsValueSnoc("65", '5');
    assert "65" + ['5'] == "655";
    DigitsValueSnoc("655", '3');
    assert "655" + ['3'] == "6553";
    DigitsValueSnoc("6553", '6');
    assert "6553" + ['6'] == "65536";
  }

  lemma DigitsOfTwoGibibytes()
    ensures AllDigits("131072") && DigitsValue("131072") == 131072
  {
    assert DigitsValue("1") == 1;
    DigitsValueSnoc("1", '3');
    assert "1" + ['3'] == "13";
    DigitsValueSnoc("13", '1');
    assert "13" + ['1'] == "131";
    DigitsValueSnoc("131", '0');
    assert "131" + ['0'] == "1310";
    DigitsValueSnoc("1310", '7');
    assert "1310" + ['7'] == "13107";
    DigitsValueSnoc("13107", '2');
    assert "13107" + ['2'] == "131072";
  }

  lemma DigitsOfFifteenHundred()
    ensures AllDigits("1500") && DigitsValue("1500") == 1500
  {
    assert DigitsValue("1") == 1;
    DigitsValueSnoc("1", '5');
    assert "1" + ['5'] == "15";
    DigitsValueSnoc("15", '0');
    assert "15" + ['0'] == "150";
    DigitsValueSnoc("150", '0');
    assert "150" + ['0'] == "1500";
  }

  /** A descriptor without a `memory` element gives 65536 // 1024 = 64. */
  lemma MemoryDefault()
    ensures Memory(None) == Success(64)
  {
    DigitsOfDefaultMemory();
    ParseIntOfDigits("65536");
    assert ReadInt(DefaultMemoryText) == Success(65536);
    assert 65536 / 1024 == 64;
  }

  /** 131072 // 1024 = 128: the conversion from KiB to MiB. */
  lemma MemoryWholeMebibytes()
    ensures Memory(Some("131072")) == Success(128)
  {
    DigitsOfTwoGibibytes();
    ParseIntOfDigits("131072");
    assert ReadInt("131072") == Success(131072);
    assert 131072 / 1024 == 128;
  }

  /** 1500 // 1024 = 1: the remainder is dropped, not rounded. */
  lemma MemoryTruncates()
    ensures Memory(Some("1500")) == Success(1)
  {
    DigitsOfFifteenHundred();
    ParseIntOfDigits("1500");
    assert ReadInt("1500") == Success(1500);
    assert 1500 / 1024 == 1;
  }
}

=== FILE: publish.dfy ===
/**
 * The publication gate after the container image is built: with a kept
 * working directory nothing is published; otherwise the image is pushed and
 * then removed locally, after the operator confirms when no deploy token was
 * given. A declined confirmation ends the run.
 */
module Publish {
  import opened Wrappers
  import opened Errors
  import opened Text
  import opened Package

  datatype PushDecision =
    /** A working directory was named: no question, no push, no removal. */
    | KeptLocal
    /** The image is pushed and removed; `asked` tells whether the operator was asked. */
    | Pushed(asked: bool)
    /** The operator did not confirm: the run exits without a recipe. */
    | Declined

  /** `answer.lower().startswith("yes")`. */
  predicate AcceptsPush(answer: string) {
    StartsWith(Lower(answer), "yes")
  }

  /** An answer confirms exactly when its first three letters spell "yes" in any mix of cases. */
  lemma AcceptsPushIff(answer: string)
    ensures AcceptsPush(answer) <==>
      && |answer| >= 3
      && (answer[0] == 'y' || answer[0] == 'Y')
      && (answer[1] == 'e' || answer[1] == 'E')
      && (answer[2] == 's' || answer[2] == 'S')
  {
    if |answer| >= 3 {
      var l := Lower(answer);
      assert l[..3] == [l[0], l[1], l[2]];
      assert [l[0], l[1], l[2]] == "yes" <==> l[0] == 'y' && l[1] == 'e' && l[2] == 's';
    }
  }

  /**
   * The push gate, consuming the operator's answer only when it asks. Fails
   * with EndOfInput when it must ask and no answer is left.
   */
  function DecidePush(keepWorkDir: bool, hasToken: bool, answers: seq<string>): (r: Result<Prompted<PushDecision>, Error>)
    ensures r.Failure? <==> !keepWorkDir && !hasToken && |answers| == 0
    ensures r.Failure? ==> r.error == EndOfInput
    ensures keepWorkDir ==> r.Success? && r.value.value.KeptLocal?
    ensures r.Success? && r.value.value.Pushed? <==>
      !keepWorkDir && (hasToken || (|answers| > 0 && AcceptsPush(answers[0])))
    ensures r.Success? && r.value.value.Declined? ==> !hasToken
    ensures r.Success? && r.value.value.KeptLocal? ==> keepWorkDir
    ensures r.Success? ==>
      (if !keepWorkDir && !hasToken then r.value.rest == answers[1..] else r.value.rest == answers)
    ensures r.Success? && r.value.value.Pushed? ==> (r.value.value.asked <==> !hasToken)
  {
    if keepWorkDir then Success(Prompted(KeptLocal, answers))
    else if hasToken then Success(Prompted(Pushed(false), answers))
    else if |answers| == 0 then Failure(EndOfInput)
    else if AcceptsPush(answers[0]) then Success(Prompted(Pushed(true), answers[1..]))
    else Success(Prompted(Declined, answers[1..]))
  }

  /** The `docker push` and `docker image rm` command lines the decision runs for a tag. */
  function PublishCommands(d: PushDecision, tag: string): (cmds: seq<seq<string>>)
    ensures |cmds| > 0 <==> d.Pushed?
    ensures forall i :: 0 <= i < |cmds| ==> |cmds[i]| >= 3 && cmds[i][0] == "docker" && cmds[i][|cmds[i]| - 1] == tag
    ensures d.Pushed? ==> cmds[0][1] == "push" && cmds[|cmds| - 1][1..3] == ["image", "rm"]
  {
    if d.Pushed? then [["docker", "push", tag], ["docker", "image", "rm", tag]] else []
  }
}

=== FILE: recipe.dfy ===
/**
 * Names derived from the deployment identity (the container tag and the
 * recipe path), the credentials block, and the recipe document, together
 * with a line-based reader that recovers every field the recipe carries.
 */
module Recipe {
  import opened Wrappers
  import opened Errors
  import opened Text
  import opened Identity

  // ----- Names -----

  const TagSuffix: string := ":latest"

  /** `f"{registry}/{uuid}:latest"`. */
  function ContainerTag(registry: string, id: Uuid): (tag: string)
    ensures StartsWith(tag, registry + "/")
    ensures EndsWith(tag, TagSuffix)
    ensures |tag| == |registry| + 44
  {
    registry + "/" + UuidText(id) + TagSuffix
  }

  /** Reads a tag back into its registry and identity, using the fixed length of the identity text. */
  function SplitTag(tag: string): Option<(string, Uuid)> {
    if |tag| < 44 || !EndsWith(tag, TagSuffix) || tag[|tag| - 44] != '/' then None
    else
      var id :- ParseUuidText(tag[|tag| - 43..|tag| - 7]);
      Some((tag[..|tag| - 44], id))
  }

  lemma SplitTagOfContainerTag(registry: string, id: Uuid)
    ensures SplitTag(ContainerTag(registry, id)) == Some((registry, id))
  {
    var tag := ContainerTag(registry, id);
    assert tag[|tag| - 44] == '/';
    assert tag[|tag| - 43..|tag| - 7] == UuidText(id);
    assert tag[..|tag| - 44] == registry;
    ParseUuidTextOfUuidText(id);
  }

  /** Two conversions share a container tag only if they share the registry and the identity. */
  lemma ContainerTagInjective(r1: string, id1: Uuid, r2: string, id2: Uuid)
    ensures ContainerTag(r1, id1) == ContainerTag(r2, id2) <==> r1 == r2 && id1 == id2
  {
    SplitTagOfContainerTag(r1, id1);
    SplitTagOfContainerTag(r2, id2);
  }

  const RecipeDirectory: string := "RECIPES"
  const RecipeExtension: string := ".yaml"

  /**
   * `(RECIPES / str(uuid)).with_suffix(".yaml")`. The identity text has no
   * `.`, so `with_suffix` appends the extension rather than replacing one.
   */
  function RecipePath(id: Uuid): (path: string)
    ensures StartsWith(path, RecipeDirectory + "/")
    ensures EndsWith(path, RecipeExtension)
    ensures |path| == |RecipeDirectory| + 1 + 36 + |RecipeExtension|
  {
    RecipeDirectory + "/" + UuidText(id) + RecipeExtension
  }

  /** The identity a recipe path is addressed by. */
  function RecipePathUuid(path: string): Option<Uuid> {
    if |path| != 49 || !StartsWith(path, RecipeDirectory + "/") || !EndsWith(path, RecipeExtension) then None
    else ParseUuidText(path[8..44])
  }

  lemma RecipePathUuidOfRecipePath(id: Uuid)
    ensures RecipePathUuid(RecipePath(id)) == Some(id)
  {
    var path := RecipePath(id);
    assert path[8..44] == UuidText(id);
    ParseUuidTextOfUuidText(id);
  }

  /** Each identity has its own recipe file: re-converting the same URL overwrites only its own recipe. */
  lemma RecipePathInjective(id1: Uuid, id2: Uuid)
    ensures RecipePath(id1) == RecipePath(id2) <==> id1 == id2
  {
    RecipePathUuidOfRecipePath(id1);
    RecipePathUuidOfRecipePath(id2);
  }

  // ----- Credentials -----

  /** The recipe's access block: public, or restricted to pull credentials for a registry host. */
  datatype Access = Unrestricted | Restricted(registryHost: string, username: string, password: string)

  /**
   * With a deploy token, `registry.split("/", 1)` gives the registry host and
   * `token.split(":", 1)` gives username and password; each unpacking fails
   * when its separator is absent, the registry's first.
   */
  function ResolveAccess(registry: string, token: Option<string>): (r: Result<Access, Error>)
    ensures token.None? ==> r == Success(Unrestricted)
    ensures token.Some? ==> (r.Success? <==> '/' in registry && ':' in token.value)
    ensures token.Some? && '/' !in registry ==> r == Failure(RegistryWithoutSlash(registry))
    ensures token.Some? && '/' in registry && ':' !in token.value ==> r == Failure(TokenWithoutColon)
    ensures token.Some? && r.Success? ==>
      && r.value.Restricted?
      && '/' !in r.value.registryHost
      && StartsWith(registry, r.value.registryHost + "/")
      && ':' !in r.value.username
      && token.value == r.value.username + ":" + r.value.password
  {
    match token
    case None => Success(Unrestricted)
    case Some(t) =>
      match SplitOnce(registry, '/')
      case None => Failure(RegistryWithoutSlash(registry))
      case Some((host, _)) =>
        match SplitOnce(t, ':')
        case None => Failure(TokenWithoutColon)
        case Some((username, password)) =>
          assert registry[..|host| + 1] == host + "/";
          Success(Restricted(host, username, password))
  }

  /** The password keeps every `:` after the first: only the username ends at a colon. */
  lemma PasswordMayHoldColons(registry: string, username: string, password: string)
    requires '/' in registry && ':' !in username
    ensures ResolveAccess(registry, Some(username + ":" + password)).Success?
    ensures ResolveAccess(registry, Some(username + ":" + password)).value.username == username
    ensures ResolveAccess(registry, Some(username + ":" + password)).value.password == password
  {
    SplitOnceOfJoined(username, ':', password);
    assert username + ":" + password == username + [':'] + password;
  }

  function Quote(value: string): string {
    "\"" + value + "\""
  }

  /** The lines of the credentials block; a restricted block ends with a newline, so its last line is empty. */
  function CredentialLines(a: Access): seq<string> {
    match a
    case Unrestricted => ["  restricted: false"]
    case Restricted(host, username, password) =>
      [ "  containerDiskCredentials:",
        "    registry: " + Quote(host),
        "    username: " + Quote(username),
        "    password: " + Quote(password),
        "  restricted: true",
        "" ]
  }

  /** The `credentials` text appended to the recipe. */
  function CredentialsBlock(a: Access): string {
    Join(CredentialLines(a))
  }

  /** Without a deploy token the block is the single line `  restricted: false`, with no newline after it. */
  lemma UnrestrictedBlock()
    ensures CredentialsBlock(Unrestricted) == "  restricted: false"
  {
  }

  // ----- Recipe document -----

  /** The values a recipe carries. `name` is the identity's text. */
  datatype RecipeFields = RecipeFields(
    description: string,
    repository: string,
    name: string,
    cpu: int,
    memory: int,
    access: Access)

  const ChartRepository: string := "https://cmusatyalab.github.io/olive2022"
  const ChartLine: string := "chart: " + ChartRepository + "/vmi"
  const VersionLine: string := "version: 0.1.2"

  /** The fourteen lines of the recipe before the credentials block. */
  function HeaderLines(f: RecipeFields): seq<string> {
    [ "description: " + Quote(f.description),
      ChartLine,
      VersionLine,
      "values:",
      "  containerDisk:",
      "    repository: " + Quote(f.repository),
      "    name: " + Quote(f.name),
      "    bus: sata",
      "  resources:",
      "    requests:",
      "      cpu: " + IntToString(f.cpu),
      "      memory: " + IntToString(f.memory) + "Mi",
      "  virtvnc:",
      "    fullnameOverride: vmi" ]
  }

  /**
   * The recipe text: values interpolated as they are, with no quoting or
   * escaping. It is the header template, each line ending in a newline,
   * followed by the credentials block.
   */
  function RecipeText(f: RecipeFields): (t: string)
    ensures t == Join(HeaderLines(f)) + "\n" + CredentialsBlock(f.access)
  {
    JoinAppend(HeaderLines(f), CredentialLines(f.access));
    Join(HeaderLines(f) + CredentialLines(f.access))
  }

  // ----- Reading a recipe back -----

  /** The value of a `key"value"` line. */
  function Quoted(line: string, key: string): Option<string> {
    if |line| >= |key| + 2 && StartsWith(line, key + "\"") && line[|line| - 1] == '"' then
      Some(line[|key| + 1..|line| - 1])
    else None
  }

  lemma QuotedOfQuote(key: string, value: string)
    ensures Quoted(key + Quote(value), key) == Some(value)
  {
    var line := key + Quote(value);
    assert line[..|key| + 1] == key + "\"";
    assert line[|key| + 1..|line| - 1] == value;
  }

  /** The integer of a `key{n}unit` line. */
  function IntField(line: string, key: string, unit: string): Option<int> {
    if |line| >= |key| + |unit| && StartsWith(line, key) && EndsWith(line, unit) then
      ParseInt(line[|key|..|line| - |unit|])
    else None
  }

  lemma IntFieldOfInt(key: string, n: int, unit: string)
    ensures IntField(key + IntToString(n) + unit, key, unit) == Some(n)
  {
    var line := key + IntToString(n) + unit;
    assert line[..|key|] == key;
    assert line[|line| - |unit|..] == unit;
    assert line[|key|..|line| - |unit|] == IntToString(n);
    ParseIntOfIntToString(n);
  }

  function ParseAccess(lines: seq<string>): Option<Access> {
    if lines == ["  restricted: false"] then Some(Unrestricted)
    else if |lines| == 6 && lines[0] == "  containerDiskCredentials:"
      && lines[4] == "  restricted: true" && lines[5] == "" then
      var host :- Quoted(lines[1], "    registry: ");
      var username :- Quoted(lines[2], "    username: ");
      var password :- Quoted(lines[3], "    password: ");
      Some(Restricted(host, username, password))
    else None
  }

  /** The header lines that hold no value are the template's own. */
  predicate FixedHeaderLines(lines: seq<string>)
    requires |lines| == 14
  {
    && lines[1] == ChartLine && lines[2] == VersionLine && lines[3] == "values:"
    && lines[4] == "  containerDisk:" && lines[7] == "    bus: sata"
    && lines[8] == "  resources:" && lines[9] == "    requests:"
    && lines[12] == "  virtvnc:" && lines[13] == "    fullnameOverride: vmi"
  }

  /** Reads the fourteen header lines; the access block is read separately and passed in. */
  function ParseHeader(lines: seq<string>, access: Access): Option<RecipeFields>
    requires |lines| == 14
  {
    if !FixedHeaderLines(lines) then None
    else
      var description :- Quoted(lines[0], "description: ");
      var repository :- Quoted(lines[5], "    repository: ");
      var name :- Quoted(lines[6], "    name: ");
      var cpu :- IntField(lines[10], "      cpu: ", "");
      var memory :- IntField(lines[11], "      memory: ", "Mi");
      Some(RecipeFields(description, repository, name, cpu, memory, access))
  }

  /** A line-based reader for the recipe template. */
  function ParseRecipe(text: string): Option<RecipeFields> {
    var lines := Lines(text);
    if |lines| < 15 then None
    else
      var access :- ParseAccess(lines[14..]);
      ParseHeader(lines[..14], access)
  }

  /** No value interpolated into the recipe holds a newline. */
  predicate SingleLineValues(f: RecipeFields) {
    && NoNewline(f.description)
    && NoNewline(f.repository)
    && NoNewline(f.name)
    && (f.access.Restricted? ==>
          NoNewline(f.access.registryHost) && NoNewline(f.access.username) && NoNewline(f.access.password))
  }

  lemma {:induction false} NoNewlineConcat(a: string, b: string)
    requires NoNewline(a) && NoNewline(b)
    ensures NoNewline(a + b)
  {
  }

  lemma ChartLineHasNoNewline()
    ensures NoNewline(ChartLine)
  {
    NoNewlineConcat("chart: ", ChartRepository);
    NoNewlineConcat("chart: " + ChartRepository, "/vmi");
  }

  lemma TemplateLinesHaveNoNewline()
    ensures NoNewline(ChartLine) && NoNewline(VersionLine) && NoNewline("values:")
    ensures NoNewline("  containerDisk:") && NoNewline("    bus: sata")
    ensures NoNewline("  resources:") && NoNewline("    requests:")
    ensures NoNewline("  virtvnc:") && NoNewline("    fullnameOverride: vmi")
  {
    ChartLineHasNoNewline();
  }

  lemma ValueLinesHaveNoNewline(f: RecipeFields)
    requires SingleLineValues(f)
    ensures NoNewline("description: " + Quote(f.description))
    ensures NoNewline("    repository: " + Quote(f.repository))
    ensures NoNewline("    name: " + Quote(f.name))
    ensures NoNewline("      cpu: " + IntToString(f.cpu))
    ensures NoNewline("      memory: " + IntToString(f.memory) + "Mi")
  {
    NoNewlineConcat("description: ", Quote(f.description));
    NoNewlineConcat("    repository: ", Quote(f.repository));
    NoNewlineConcat("    name: ", Quote(f.name));
    IntToStringHasNoNewline(f.cpu);
    IntToStringHasNoNewline(f.memory);
    NoNewlineConcat("      cpu: ", IntToString(f.cpu));
    NoNewlineConcat("      memory: ", IntToString(f.memory));
    NoNewlineConcat("      memory: " + IntToString(f.memory), "Mi");
  }

  lemma HeaderLinesHaveNoNewline(f: RecipeFields)
    requires SingleLineValues(f)
    ensures forall i :: 0 <= i < |HeaderLines(f)| ==> NoNewline(HeaderLines(f)[i])
  {
    TemplateLinesHaveNoNewline();
    ValueLinesHaveNoNewline(f);
  }

  lemma CredentialLinesHaveNoNewline(a: Access)
    requires a.Restricted? ==> NoNewline(a.registryHost) && NoNewline(a.username) && NoNewline(a.password)
    ensures forall i :: 0 <= i < |CredentialLines(a)| ==> NoNewline(CredentialLines(a)[i])
  {
    if a.Restricted? {
      NoNewlineConcat("    registry: ", Quote(a.registryHost));
      NoNewlineConcat("    username: ", Quote(a.username));
      NoNewlineConcat("    password: ", Quote(a.password));
    }
  }

  lemma ParseHeaderOfHeaderLines(f: RecipeFields)
    ensures ParseHeader(HeaderLines(f), f.access) == Some(f)
  {
    var h := HeaderLines(f);
    assert FixedHeaderLines(h);
    assert h[0] == "description: " + Quote(f.description);
    assert h[5] == "    repository: " + Quote(f.repository);
    assert h[6] == "    name: " + Quote(f.name);
    assert h[10] == "      cpu: " + IntToString(f.cpu);
    assert h[11] == "      memory: " + IntToString(f.memory) + "Mi";
    QuotedOfQuote("description: ", f.description);
    QuotedOfQuote("    repository: ", f.repository);
    QuotedOfQuote("    name: ", f.name);
    IntFieldOfInt("      cpu: ", f.cpu, "");
    assert "      cpu: " + IntToString(f.cpu) + "" == "      cpu: " + IntToString(f.cpu);
    IntFieldOfInt("      memory: ", f.memory, "Mi");
  }

  lemma ParseAccessOfCredentialLines(a: Access)
    ensures ParseAccess(CredentialLines(a)) == Some(a)
  {
    if a.Restricted? {
      QuotedOfQuote("    registry: ", a.registryHost);
      QuotedOfQuote("    username: ", a.username);
      QuotedOfQuote("    password: ", a.password);
    }
  }

  /**
   * The recipe carries every value verbatim: when no value holds a newline,
   * reading the recipe text gives back exactly the values it was made from.
   */
  lemma ParseRecipeOfRecipeText(f: RecipeFields)
    requires SingleLineValues(f)
    ensures ParseRecipe(RecipeText(f)) == Some(f)
  {
    var h := HeaderLines(f);
    var c := CredentialLines(f.access);
    HeaderLinesHaveNoNewline(f);
    CredentialLinesHaveNoNewline(f.access);
    assert forall i :: 0 <= i < |h + c| ==> NoNewline((h + c)[i]) by {
      forall i | 0 <= i < |h + c|
        ensures NoNewline((h + c)[i])
      {
        if i < |h| {
          assert (h + c)[i] == h[i];
        } else {
          assert (h + c)[i] == c[i - |h|];
        }
      }
    }
    LinesOfJoin(h + c);
    assert (h + c)[..14] == h;
    assert (h + c)[14..] == c;
    ParseHeaderOfHeaderLines(f);
    ParseAccessOfCredentialLines(f.access);
  }
}

=== FILE: stage2.dfy ===
/**
 * The launch side after scheduling: poll the deployment's VNC endpoint
 * (`vmi-vnc:5900`) until it answers with the RFB protocol signature, then
 * start the first installed VNC viewer with the address in the form that
 * viewer expects.
 */
module Stage2 {
  import opened Wrappers
  import opened Text

  /** What one connection attempt observed. */
  datatype Probe =
    /** `socket.gaierror`: the host name did not resolve. */
    | Unresolved
    /** `ConnectionRefusedError`. */
    | Refused
    /** `socket.timeout` while connecting or reading. */
    | TimedOut
    /** The connection succeeded and `recv(3)` returned these bytes. */
    | Received(bytes: seq<Byte>)
    /** Any other socket error: it is not caught and ends the process. */
    | Unexpected

  /** `b"RFB"`, the start of an RFB server's protocol version message. */
  const RfbSignature: seq<Byte> := [0x52, 0x46, 0x42]

  /** The probe that ends the loop. */
  predicate Ready(p: Probe) {
    p.Received? && StartsWith(p.bytes, RfbSignature)
  }

  /** The probes after which the loop sleeps one second and tries again. */
  predicate Retried(p: Probe) {
    p.Unresolved? || p.Refused? || p.TimedOut? || (p.Received? && !Ready(p))
  }

  /** Where the polling loop stands after the observed probes, with the number of attempts made. */
  datatype Wait =
    | Connected(attempts: nat)
    /** Every observed probe was retried: the loop is still polling. */
    | Polling(attempts: nat)
    | Crashed(attempts: nat)

  /** The polling loop over a sequence of probe outcomes, one per attempt. */
  function Await(probes: seq<Probe>): (w: Wait)
    ensures w.attempts <= |probes|
    ensures forall j :: 0 <= j < w.attempts - 1 ==> Retried(probes[j])
    ensures w.Connected? ==> w.attempts >= 1 && Ready(probes[w.attempts - 1])
    ensures w.Crashed? ==> w.attempts >= 1 && probes[w.attempts - 1].Unexpected?
    ensures w.Polling? ==> w.attempts == |probes| && forall j :: 0 <= j < |probes| ==> Retried(probes[j])
  {
    if |probes| == 0 then Polling(0)
    else if Ready(probes[0]) then Connected(1)
    else if probes[0].Unexpected? then Crashed(1)
    else
      match Await(probes[1..])
      case Connected(n) => Connected(n + 1)
      case Polling(n) => Polling(n + 1)
      case Crashed(n) => Crashed(n + 1)
  }

  /** If the first ready probe is at index `n` and every earlier one was retried, the loop connects after exactly `n + 1` attempts. */
  lemma {:induction false} ConnectsAfterFirstReady(probes: seq<Probe>, n: nat)
    requires n < |probes| && Ready(probes[n])
    requires forall j :: 0 <= j < n ==> Retried(probes[j])
    ensures Await(probes) == Connected(n + 1)
  {
    if n > 0 {
      assert Retried(probes[0]);
      ConnectsAfterFirstReady(probes[1..], n - 1);
    }
  }

  // ----- Viewer choice -----

  /** `shutil.which`: the path of an installed program, if any. */
  type Which = string -> Option<string>

  datatype Viewer = Viewer(path: string, argument: string)

  const UrlViewer: string := "remote-viewer"
  const DisplayViewers: seq<string> := ["gvncviewer", "vncviewer"]
  const VncUrl: string := "vnc://vmi-vnc:5900"
  const VncDisplay: string := "vmi-vnc:0"

  /** The index of the first installed program of a list. */
  function FirstInstalled(apps: seq<string>, which: Which): (r: Option<nat>)
    ensures r.Some? ==> r.value < |apps| && which(apps[r.value]).Some?
    ensures r.Some? ==> forall j :: 0 <= j < r.value ==> which(apps[j]).None?
    ensures r.None? ==> forall j :: 0 <= j < |apps| ==> which(apps[j]).None?
  {
    if |apps| == 0 then None
    else if which(apps[0]).Some? then Some(0)
    else
      match FirstInstalled(apps[1..], which)
      case None => None
      case Some(i) => Some(i + 1)
  }

  /** `remote-viewer` takes a URL; the other viewers take `host:display`. */
  function ChooseViewer(which: Which): (r: Option<Viewer>)
    ensures which(UrlViewer).Some? ==> r == Some(Viewer(which(UrlViewer).value, VncUrl))
    ensures which(UrlViewer).None? && r.Some? ==>
      r.value.argument == VncDisplay
      && exists i :: 0 <= i < |DisplayViewers| && which(DisplayViewers[i]) == Some(r.value.path)
    ensures r.None? <==> which(UrlViewer).None? && forall i :: 0 <= i < |DisplayViewers| ==> which(DisplayViewers[i]).None?
  {
    match which(UrlViewer)
    case Some(path) => Some(Viewer(path, VncUrl))
    case None =>
      match FirstInstalled(DisplayViewers, which)
      case Some(i) => Some(Viewer(which(DisplayViewers[i]).value, VncDisplay))
      case None => None
  }

  /** The whole preference order, most preferred first. */
  const Preference: seq<string> := [UrlViewer] + DisplayViewers

  function ArgumentFor(app: string): string {
    if app == UrlViewer then VncUrl else VncDisplay
  }

  /** The chosen viewer is the first installed program of the preference order, given the argument its kind expects. */
  lemma ChooseViewerFollowsPreference(which: Which)
    ensures ChooseViewer(which) ==
      match FirstInstalled(Preference, which)
      case Some(i) => Some(Viewer(which(Preference[i]).value, ArgumentFor(Preference[i])))
      case None => None
  {
    assert Preference[1..] == DisplayViewers;
    assert Preference[0] == UrlViewer;
  }

  // ----- The run as seen from outside -----

  datatype Event =
    /** "Waiting for VNC server to become available". */
    | Waiting
    /** One "." per connection attempt. */
    | Dot
    | Sleep(seconds: nat)
    | EndLine
    /** A viewer started with this command line. */
    | Exec(argv: seq<string>)
    /** "Failed to find a local vnc-viewer candidate". */
    | NoViewer

  /** The events of the polling loop: a dot per attempt, a one-second sleep after each retried one. */
  function PollEvents(probes: seq<Probe>): seq<Event> {
    if |probes| == 0 then []
    else if Retried(probes[0]) then [Dot, Sleep(1)] + PollEvents(probes[1..])
    else [Dot]
  }

  function ViewerEvents(which: Which, dryRun: seq<string>): seq<Event> {
    match ChooseViewer(which)
    case Some(v) => [Exec(dryRun + [v.path, v.argument])]
    case None => [NoViewer, Sleep(10)]
  }

  /**
   * `stage2`: what the operator sees and what is started, for the observed
   * probes. The waiting message comes first; the line is ended, and the
   * viewer step follows, exactly when the loop connects.
   */
  function Stage2Events(probes: seq<Probe>, which: Which, dryRun: seq<string>): (r: seq<Event>)
    ensures |r| >= 1 && r[0] == Waiting
    ensures EndLine in r <==> Await(probes).Connected?
    ensures Await(probes).Connected? ==>
      |r| >= |ViewerEvents(which, dryRun)| && r[|r| - |ViewerEvents(which, dryRun)|..] == ViewerEvents(which, dryRun)
  {
    PollEventsShape(probes);
    [Waiting] + PollEvents(probes)
    + (if Await(probes).Connected? then [EndLine] + ViewerEvents(which, dryRun) else [])
  }

  /** Polling starts nothing. */
  lemma PollStartsNothing(probes: seq<Probe>)
    ensures forall k :: 0 <= k < |PollEvents(probes)| ==> !PollEvents(probes)[k].Exec?
  {
    PollEventsShape(probes);
  }

  /**
   * With no viewer installed, a connected run starts nothing: it ends by
   * reporting the failure and sleeping ten seconds.
   */
  lemma NoViewerInstalled(probes: seq<Probe>, which: Which, dryRun: seq<string>)
    requires Await(probes).Connected? && ChooseViewer(which).None?
    ensures var r := Stage2Events(probes, which, dryRun);
      |r| >= 2 && r[|r| - 2..] == [NoViewer, Sleep(10)] && forall k :: 0 <= k < |r| ==> !r[k].Exec?
  {
    PollStartsNothing(probes);
    var poll := PollEvents(probes);
    assert ViewerEvents(which, dryRun) == [NoViewer, Sleep(10)];
    var r := [Waiting] + poll + ([EndLine] + [NoViewer, Sleep(10)]);
    assert Stage2Events(probes, which, dryRun) == r;
    forall k | 0 <= k < |r| ensures !r[k].Exec? {
      if 1 <= k <= |poll| {
        assert r[k] == poll[k - 1];
      }
    }
  }

  lemma {:induction false} PollEventsShape(probes: seq<Probe>)
    ensures multiset(PollEvents(probes))[Dot] == Await(probes).attempts
    ensures forall k :: 0 <= k < |PollEvents(probes)| ==> PollEvents(probes)[k] in {Dot, Sleep(1)}
  {
    if |probes| > 0 && Retried(probes[0]) {
      PollEventsShape(probes[1..]);
      assert PollEvents(probes) == [Dot, Sleep(1)] + PollEvents(probes[1..]);
    }
  }

  /** One dot is printed per connection attempt. */
  lemma DotPerAttempt(probes: seq<Probe>, which: Which, dryRun: seq<string>)
    ensures multiset(Stage2Events(probes, which, dryRun))[Dot] == Await(probes).attempts
  {
    PollEventsShape(probes);
    var tail := if Await(probes).Connected? then [EndLine] + ViewerEvents(which, dryRun) else [];
    assert Stage2Events(probes, which, dryRun) == [Waiting] + PollEvents(probes) + tail;
    assert Dot !in tail;
  }

  /** An event found at index `i` of `prefix + rest` that the prefix never holds lies in `rest`. */
  lemma IndexPastPrefix(prefix: seq<Event>, rest: seq<Event>, i: nat)
    requires i < |prefix + rest|
    requires (prefix + rest)[i].Exec?
    requires forall k :: 0 <= k < |prefix| ==> !prefix[k].Exec?
    ensures i >= |prefix|
  {
  }

  /** No viewer is started before the loop connects: a viewer start can only be the last event of a connected run. */
  lemma NoViewerBeforeConnected(probes: seq<Probe>, which: Which, dryRun: seq<string>, i: nat)
    requires i < |Stage2Events(probes, which, dryRun)|
    requires Stage2Events(probes, which, dryRun)[i].Exec?
    ensures Await(probes).Connected?
    ensures i == |Stage2Events(probes, which, dryRun)| - 1
  {
    PollStartsNothing(probes);
    var poll := [Waiting] + PollEvents(probes);
    var tail := if Await(probes).Connected? then [EndLine] + ViewerEvents(which, dryRun) else [];
    assert Stage2Events(probes, which, dryRun) == poll + tail;
    assert forall k :: 0 <= k < |poll| ==> !poll[k].Exec? by {
      forall k | 1 <= k < |poll| ensures !poll[k].Exec? {
        assert poll[k] == PollEvents(probes)[k - 1];
      }
    }
    IndexPastPrefix(poll, tail, i);
  }

  /** Once the loop connects with a viewer installed, starting that viewer is the last thing that happens. */
  lemma ViewerStartsLast(probes: seq<Probe>, which: Which, dryRun: seq<string>)
    requires Await(probes).Connected? && ChooseViewer(which).Some?
    ensures var events := Stage2Events(probes, which, dryRun);
      events[|events| - 1] == Exec(dryRun + [ChooseViewer(which).value.path, ChooseViewer(which).value.argument])
  {
  }
}

=== FILE: text.dfy ===
/**
 * The string operations the script relies on: prefix tests, `str.split(sep, 1)`,
 * `"\n".join` and `str.split("\n")`, ASCII lower-casing, and the conversions
 * between integers and their decimal text (`int(text)` and `str(n)`).
 */
module Text {
  import opened Wrappers

  /** An octet, as Python's `bytes` holds them. */
  type Byte = b: int | 0 <= b < 256

  predicate StartsWith<T(==)>(s: seq<T>, prefix: seq<T>) {
    |prefix| <= |s| && s[..|prefix|] == prefix
  }

  predicate EndsWith<T(==)>(s: seq<T>, suffix: seq<T>) {
    |suffix| <= |s| && s[|s| - |suffix|..] == suffix
  }

  /** The index of the first occurrence of `x` in `s` (Python's `s.find(x)`, with None for -1). */
  function FindFirst<T(==)>(s: seq<T>, x: T): (r: Option<nat>)
    ensures r.None? <==> x !in s
    ensures r.Some? ==> r.value < |s| && s[r.value] == x && x !in s[..r.value]
  {
    if |s| == 0 then None
    else if s[0] == x then Some(0)
    else
      match FindFirst(s[1..], x)
      case None => None
      case Some(i) =>
        assert s[..i + 1] == [s[0]] + s[1..][..i];
        Some(i + 1)
  }

  /**
   * `head, tail = s.split(sep, 1)`: the text before the first `sep` and
   * everything after it. None when the unpacking fails because `sep` is absent.
   */
  function SplitOnce<T(==)>(s: seq<T>, sep: T): (r: Option<(seq<T>, seq<T>)>)
    ensures r.None? <==> sep !in s
    ensures r.Some? ==> r.value.0 + [sep] + r.value.1 == s && sep !in r.value.0
  {
    match FindFirst(s, sep)
    case None => None
    case Some(i) =>
      assert s[..i] + [sep] + s[i + 1..] == s;
      Some((s[..i], s[i + 1..]))
  }

  /** Splitting at the first separator undoes gluing two parts when the first has no separator. */
  lemma SplitOnceOfJoined<T>(a: seq<T>, sep: T, b: seq<T>)
    requires sep !in a
    ensures SplitOnce(a + [sep] + b, sep) == Some((a, b))
  {
    var s := a + [sep] + b;
    assert s[|a|] == sep;
    var r := SplitOnce(s, sep);
    var (h, t) := r.value;
    assert |h| == |a|;
    assert h == s[..|h|] == a;
    assert t == s[|h| + 1..] == b;
  }

  // ----- Lines -----

  /** `"\n".join(lines)`. */
  function Join(lines: seq<string>): string {
    if |lines| == 0 then ""
    else if |lines| == 1 then lines[0]
    else lines[0] + "\n" + Join(lines[1..])
  }

  /** `s.split("\n")`: always at least one line, none containing a newline. */
  function Lines(s: string): (r: seq<string>)
    ensures |r| >= 1
    ensures forall i :: 0 <= i < |r| ==> '\n' !in r[i]
    decreases |s|
  {
    match SplitOnce(s, '\n')
    case None => [s]
    case Some((line, rest)) => [line] + Lines(rest)
  }

  predicate NoNewline(s: string) {
    '\n' !in s
  }

  /** Splitting into lines undoes joining lines that hold no newline. */
  lemma {:induction false} LinesOfJoin(lines: seq<string>)
    requires |lines| >= 1
    requires forall i :: 0 <= i < |lines| ==> NoNewline(lines[i])
    ensures Lines(Join(lines)) == lines
  {
    if |lines| == 1 {
      assert SplitOnce(lines[0], '\n').None?;
    } else {
      var rest := lines[1..];
      LinesOfJoin(rest);
      SplitOnceOfJoined(lines[0], '\n', Join(rest));
      assert lines[0] + "\n" + Join(rest) == lines[0] + ['\n'] + Join(rest);
      assert Lines(Join(lines)) == [lines[0]] + rest;
    }
  }

  /** Joining two non-empty runs of lines puts one newline between their texts. */
  lemma {:induction false} JoinAppend(a: seq<string>, b: seq<string>)
    requires |a| >= 1 && |b| >= 1
    ensures Join(a + b) == Join(a) + "\n" + Join(b)
  {
    if |a| == 1 {
      assert (a + b)[1..] == b;
    } else {
      JoinAppend(a[1..], b);
      assert (a + b)[1..] == a[1..] + b;
    }
  }

  /** Joining the lines of a text gives the text back. */
  lemma {:induction false} JoinOfLines(s: string)
    ensures Join(Lines(s)) == s
    decreases |s|
  {
    match SplitOnce(s, '\n')
    case None =>
    case Some((line, rest)) =>
      JoinOfLines(rest);
      assert Lines(s) == [line] + Lines(rest);
      assert Lines(s)[1..] == Lines(rest);
  }

  // ----- Case -----

  function LowerChar(c: char): char {
    if 'A' <= c <= 'Z' then (c as int + 32) as char else c
  }

  /** `s.lower()` restricted to ASCII letters. */
  function Lower(s: string): (r: string)
    ensures |r| == |s|
    ensures forall i :: 0 <= i < |s| ==> r[i] == LowerChar(s[i])
  {
    if |s| == 0 then "" else [LowerChar(s[0])] + Lower(s[1..])
  }

  // ----- Decimal integers -----

  predicate IsDigit(c: char) {
    '0' <= c <= '9'
  }

  predicate AllDigits(s: string) {
    forall i :: 0 <= i < |s| ==> IsDigit(s[i])
  }

  function DigitChar(d: nat): (c: char)
    requires d < 10
    ensures IsDigit(c) && c as int - '0' as int == d
  {
    ('0' as int + d) as char
  }

  function DigitValue(c: char): (d: nat)
    requires IsDigit(c)
    ensures d < 10 && DigitChar(d) == c
  {
    c as int - '0' as int
  }

  /** The value of a run of decimal digits, most significant first. */
  function DigitsValue(s: string): nat
    requires AllDigits(s)
  {
    if |s| == 0 then 0 else 10 * DigitsValue(s[..|s| - 1]) + DigitValue(s[|s| - 1])
  }

  /** `str(n)` for a natural number: decimal digits without leading zeros. */
  function NatToString(n: nat): (s: string)
    ensures |s| >= 1 && AllDigits(s)
    ensures |s| > 1 ==> s[0] != '0'
  {
    if n < 10 then [DigitChar(n)] else NatToString(n / 10) + [DigitChar(n % 10)]
  }

  /** `str(i)` for an integer: a minus sign before the digits of a negative value. */
  function IntToString(i: int): (s: string)
    ensures |s| >= 1
    ensures i < 0 <==> s[0] == '-'
  {
    if i < 0 then "-" + NatToString(-i) else NatToString(i)
  }

  lemma {:induction false} DigitsValueOfNatToString(n: nat)
    ensures DigitsValue(NatToString(n)) == n
  {
    var s := NatToString(n);
    if n >= 10 {
      DigitsValueOfNatToString(n / 10);
      assert s[..|s| - 1] == NatToString(n / 10);
    }
  }

  /**
   * The ASCII characters `int()` strips around its digits: space, tab, the
   * line and form breaks, and the four separators 0x1C to 0x1F.
   */
  predicate IsSpace(c: char) {
    || c == ' ' || c == '\t' || c == '\n' || c == '\r' || c == '\U{0B}' || c == '\U{0C}'
    || c == '\U{1C}' || c == '\U{1D}' || c == '\U{1E}' || c == '\U{1F}'
  }

  function TrimStart(s: string): (r: string)
    ensures |r| <= |s| && r == s[|s| - |r|..]
    ensures |r| > 0 ==> !IsSpace(r[0])
  {
    if |s| > 0 && IsSpace(s[0]) then TrimStart(s[1..]) else s
  }

  function TrimEnd(s: string): (r: string)
    ensures |r| <= |s| && r == s[..|r|]
    ensures |r| > 0 ==> !IsSpace(r[|r| - 1])
  {
    if |s| > 0 && IsSpace(s[|s| - 1]) then TrimEnd(s[..|s| - 1]) else s
  }

  /** `s.strip()` over ASCII whitespace. */
  function Strip(s: string): string {
    TrimEnd(TrimStart(s))
  }

  /**
   * `int(text)`: surrounding whitespace, an optional sign and at least one
   * decimal digit. None where Python raises ValueError.
   */
  function ParseInt(text: string): Option<int> {
    var t := Strip(text);
    if |t| > 0 && (t[0] == '-' || t[0] == '+') then
      var digits := t[1..];
      if |digits| > 0 && AllDigits(digits) then
        var v: int := DigitsValue(digits);
        Some(if t[0] == '-' then -v else v)
      else None
    else if |t| > 0 && AllDigits(t) then Some(DigitsValue(t))
    else None
  }

  /** A text that neither starts nor ends with whitespace is its own strip. */
  lemma StripOfUnpadded(s: string)
    requires |s| > 0 && !IsSpace(s[0]) && !IsSpace(s[|s| - 1])
    ensures Strip(s) == s
  {
    assert TrimStart(s) == s;
  }

  /** `int(str(i)) == i`: the decimal text of an integer reads back as that integer. */
  lemma ParseIntOfIntToString(i: int)
    ensures ParseInt(IntToString(i)) == Some(i)
  {
    if i < 0 {
      var digits := NatToString(-i);
      var s := "-" + digits;
      assert s[1..] == digits;
      StripOfUnpadded(s);
      DigitsValueOfNatToString(-i);
    } else {
      StripOfUnpadded(NatToString(i));
      DigitsValueOfNatToString(i);
    }
  }

  lemma NatToStringHasNoNewline(n: nat)
    ensures NoNewline(NatToString(n)) && '"' !in NatToString(n)
  {
  }

  lemma IntToStringHasNoNewline(i: int)
    ensures NoNewline(IntToString(i)) && '"' !in IntToString(i)
  {
    NatToStringHasNoNewline(if i < 0 then -i else i);
  }

  /** Appending a digit multiplies the value so far by ten and adds the digit. */
  lemma DigitsValueSnoc(s: string, c: char)
    requires AllDigits(s) && IsDigit(c)
    ensures AllDigits(s + [c])
    ensures DigitsValue(s + [c]) == 10 * DigitsValue(s) + DigitValue(c)
  {
    assert (s + [c])[..|s|] == s;
  }

  /** A bare run of digits reads as its value. */
  lemma ParseIntOfDigits(s: string)
    requires |s| > 0 && AllDigits(s)
    ensures ParseInt(s) == Some(DigitsValue(s) as int)
  {
    StripOfUnpadded(s);
  }
}

=== FILE: wrappers.dfy ===
/** Failure-compatible Option and Result datatypes used throughout the model. */
module Wrappers {

  /** An optional value: Python's `None` or a present value. */
  datatype Option<+T> = None | Some(value: T) {

    predicate IsFailure() {
      None?
    }

    function PropagateFailure<U>(): Option<U>
      requires None?
    {
      None
    }

    function Extract(): T
      requires Some?
    {
      value
    }

    /** The value, or `default` when absent (Python's `x if x is not None else default`). */
    function GetOr(default: T): T {
      match this
      case Some(v) => v
      case None => default
    }
  }

  /** A computation that either succeeds with a value or raises an error. */
  datatype Result<+R, +E> = Success(value: R) | Failure(error: E) {

    predicate IsFailure() {
      Failure?
    }

    function PropagateFailure<U>(): Result<U, E>
      requires Failure?
    {
      Failure(error)
    }

    function Extract(): R
      requires Success?
    {
      value
    }
  }
}
